=== FILE: README.md ===
# Note app: the note-list state machine

This project models the state kept by the `App` component of a small React
Native note-taking app, and the handlers that change that state. Rendering and
the storage calls themselves are not modelled. The state is:

- the list stored under the `'NOTES'` key;
- the list on screen (`allNotes`);
- the form's draft: the text, the category dropdown and the client dropdown;
- the edit target (`noteIdToEdit`);
- whether the form's modal is visible.

Each handler is a pure function from one `NoteApp.State` to the next:

- `handleGetNotes`: reload the screen from storage.
- `handleOpenForm`, `editNote`, `handleCloseForm`.
- `saveNote` through `handleAddNewNote`: validate, then either update notes
  in place or append a new note.
- `deleteNote`.
- `deleteAllNotes`, with the user's answer to the confirmation as a boolean.

Storage is an abstract `Option<seq<Note>>`. `None` means the key is absent,
so loading it gives the empty list. The random id is an input restricted to
0..999 (`NoteList.GeneratedId`). The dropdowns and the edit target are
`Option` values, with `None` standing for JavaScript's `null`/`undefined`.

Files:

- `options.dfy`: module `Options`, the `Option` type.
- `note_list.dfy`: module `NoteList`, which holds the `Note` record and two
  list operations:
  - `RemoveId`, the `filter` behind deleting a note;
  - `UpdateWhere`, the `map` behind saving an edit.
- `note_app.dfy`: module `NoteApp`, which holds:
  - the state record and the handlers;
  - the `Event`/`Step`/`Run` view of a session, where an event is a press,
    the mount refresh, typing into the text box or picking a dropdown value.
    `Step` accepts every event in every state, so it allows more orders of
    events than the screen offers: tapping or deleting a note while the form
    covers the screen, or typing, saving and closing while the form is hidden.
    The invariant lemmas hold for all of these orders;
  - the invariant `Consistent`: the screen matches storage, and every note
    has non-empty text and an id in 0..999.
- `app_properties.dfy`: module `AppProperties`, which holds lemmas about runs
  of handlers.

Behaviour of the code as written, kept in the model:

- The edit branch of `saveNote` rewrites the list on screen, not a fresh read
  of storage. The create branch appends to the list read from storage.
- The edit branch resets the edit target but not the dropdowns. The create
  branch resets the dropdowns but not the edit target.
- `handleAddNewNote` clears the text box on every path, including when
  validation fails. Nothing else changes on that path; the alert is the only
  effect.
- The edit branch is taken only when the edit target is truthy. A note whose
  id is 0, which the generator can produce, therefore cannot be edited: saving
  appends a new note with the form's fields and leaves the id-0 note in place
  (`AppProperties.EditOfIdZeroCreates` shows this for an unchanged form).
- Ids are never regenerated or checked for uniqueness, so a generated id can
  repeat a stored one (`AppProperties.CreatedIdMayCollide`).
- Saving an edit whose note is gone raises no error. The update matches
  nothing, and the list on screen is still written back to storage.

## Model

| member | source | states |
|---|---|---|
| `NoteList.RemoveId` | App.js:110 | No note left after the delete carries the target id, and the list never grows. |
| `NoteList.RemoveIdKeepsOthers` | App.js:110 | Deleting keeps every note whose id differs from the target, as many times as it occurred, and no note with the target id. The result is an order-preserving subsequence of the input. |
| `NoteList.RemoveIdMembership` | App.js:110 | A note remains after deleting an id iff it was present and carries a different id. |
| `NoteList.RemoveIdIsTheFilter` | App.js:110 | Any order-preserving selection that keeps every note with a different id, with its multiplicity, and nothing else is exactly `RemoveId`. |
| `NoteList.RemoveAbsentId` | App.js:110 | Deleting an id that no note carries returns the list unchanged. |
| `NoteList.RemoveIdIdempotent` | App.js:110 | Deleting the same id twice gives the same list as deleting it once. |
| `NoteList.UpdateWhere` | App.js:41-46 | The edit map keeps the length and every position's id. Notes with the target id get the new text, category and client. Every other note is unchanged. |
| `NoteList.UpdateWithOwnFields` | App.js:46 | Writing a note's own fields back under its id changes nothing, when no other note shares the id. |
| `NoteList.UpdateAbsentId` | App.js:46 | An update to an id that no note carries changes nothing. |
| `NoteList.UpdateIdempotent` | App.js:46 | Applying the same update twice is the same as applying it once. |
| `NoteApp.Initial` | App.js:12-21 | On first render the screen list is empty, the text is `''`, both dropdowns and the edit target are unset and the modal is hidden; storage is whatever it holds. |
| `NoteApp.Step` | App.js:140-210 | Typing or picking a dropdown value changes only that field of the form. Only a save, a delete or a clear writes storage. Only those and a refresh change the list on screen. |
| `NoteApp.Load` | App.js:28-31 | Reading storage gives the stored list, or the empty list when the key is absent. |
| `NoteApp.HandleGetNotes` | App.js:83-86 | After a refresh the screen equals storage, and an absent key gives the empty list. Nothing else changes. |
| `NoteApp.CreateNote` | App.js:100-106 | A created note carries the generated id, which lies in 0..999, and the draft's text, category and client. |
| `NoteApp.SaveNote` | App.js:37-68 | Save rejects iff the text is empty or a dropdown is unset; a rejected save changes nothing. It updates iff the draft is valid and the target is set and non-zero, and creates otherwise. Update writes back the on-screen list with the same length and ids: target notes get the draft's fields, the others are unchanged. It then clears the target and hides the modal but keeps the dropdowns. Create appends exactly one note, with the generated id and the draft's fields, to the stored list; it resets the dropdowns and hides the modal but keeps the target. After either write the screen equals storage. |
| `NoteApp.HandleAddNewNote` | App.js:78-81 | The text box is empty afterwards on every path. A rejected save leaves both lists, the dropdowns, the target and the modal as they were. A valid save ends with the screen synced to storage and the modal hidden. In every case the result is what `saveNote` left, except that the text box is empty. |
| `NoteApp.EditNote` | App.js:70-76 | The draft is loaded from the chosen note, the target becomes its id and the modal is shown. Storage and screen are unchanged. |
| `NoteApp.HandleOpenForm` | App.js:88-90 | Only the modal changes, to visible. The draft is kept. |
| `NoteApp.HandleCloseForm` | App.js:92-98 | The text becomes `''`, both dropdowns and the target become unset, and the modal is hidden. Storage and screen are untouched. |
| `NoteApp.DeleteNote` | App.js:109-113 | Storage and screen both become the on-screen list without the notes carrying the id: same membership and multiplicities for the others, in order. The form is untouched. |
| `NoteApp.DeleteAllNotes` | App.js:115-134 | On "Yes" storage is cleared and the screen list is empty. On "No" nothing changes. |
| `AppProperties.MountEstablishesConsistency` | App.js:23-31 | The mount effect syncs the screen with storage, giving the empty list when the key is absent. It establishes the invariant when storage holds well-formed notes. |
| `AppProperties.WritesResync` | App.js:47-128 | After any completed save, any delete or a confirmed clear, the screen equals storage, whatever the state before. |
| `AppProperties.StepKeepsConsistency` | App.js:37-128 | Every handler keeps the invariant: the screen matches storage, all texts are non-empty and all ids are in 0..999. |
| `AppProperties.RunKeepsConsistency` | App.js:37-128 | Every sequence of handlers keeps the invariant. |
| `AppProperties.CreateAppendsOne` | App.js:53-60 | With the screen in sync, a create-save shows the previous list with exactly one note appended. That note has the generated id and the draft's fields. |
| `AppProperties.CreateFlowAppendsTypedNote` | App.js:53-62 | Opening the form, typing a non-empty text, picking both dropdowns and saving (with no truthy edit target) appends exactly the typed note under the generated id, writes it to storage, and empties and hides the form. |
| `AppProperties.CreatedIdMayCollide` | App.js:102 | When the generator yields an existing note's id, the list afterwards has two notes with that id. |
| `AppProperties.EditSaveRoundTrip` | App.js:40-51 | Tapping a note with a unique non-zero id and saving unchanged leaves storage and screen as they were. |
| `AppProperties.EditOfIdZeroCreates` | App.js:40-54 | Tapping the note with id 0 and saving leaves it in place and appends a copy under the generated id. The target stays 0. |
| `AppProperties.DeleteTwiceIsDeleteOnce` | App.js:109-113 | Deleting the same id twice ends in the same state as deleting it once. |
| `AppProperties.DeleteAbsentIdKeepsList` | App.js:109-113 | With the screen in sync, deleting an absent id leaves the screen and the loaded storage unchanged. |
| `AppProperties.EditThenCloseDiscards` | App.js:92-98 | Tapping a note then closing the form changes no list and leaves the form empty and hidden. |

## Left out

- Rendering, styles, the dropdown widgets, the modal, the list view and the icons. These are presentation only.
- `AsyncStorage` and the JSON encoding. Storage is an abstract `Option<seq<Note>>`, and every handler runs as one atomic step.
- The catch path of `getNotes`, which logs and returns `undefined` when the storage read throws. It is error handling around a foreign call.
- Failed storage writes: the model assumes every write succeeds. `saveNote`'s create branch catches and logs a failed write (App.js:63-65). The edit-branch write (App.js:48), `deleteNote`'s write (App.js:111) and the clear in the "Yes" callback (App.js:126) are not caught, and a failure there skips the rest of the handler. `deleteAllNotes`'s own catch (App.js:131-133) covers only the alert call.
- `Math.random`. It is floating point and nondeterministic, so the generated id is a parameter in 0..999.
- The un-awaited `saveNote()` inside `handleAddNewNote`, and other async interleavings. These are concurrency; each handler is one atomic step.
- The contents of the category and client lists. The dropdown values are opaque strings.
- The dropdowns' open/closed flags and their item lists. They never affect the notes.
- NoteApp.DeleteAllNotes: `AsyncStorage.clear()` erases every key in the app's storage. The model has only the `'NOTES'` key, so it states only that this key becomes absent.

=== FILE: app_properties.dfy ===
/** Properties of runs of the note app: the invariant its handlers keep, and
    the behaviours of saving and deleting that follow from the code as written. */
module AppProperties {
  import opened Options
  import opened NoteList
  import opened NoteApp

  /** The mount effect brings the screen in line with storage; if storage holds
      only notes the app could have written, the invariant holds from then on. */
  lemma MountEstablishesConsistency(stored: Storage)
    requires forall i :: 0 <= i < |Load(stored)| ==> WellFormedNote(Load(stored)[i])
    ensures Consistent(Step(Initial(stored), Refresh))
    ensures stored.None? ==> Step(Initial(stored), Refresh).allNotes == []
  {
  }

  /** Every completed save, every delete and every confirmed clear leaves the
      screen showing exactly what storage holds, whatever the state before. */
  lemma WritesResync(s: State, e: Event)
    requires e.PressDelete? || (e.PressClear? && e.confirmed) || (e.PressSave? && ValidDraft(s.draft))
    ensures Synced(Step(s, e))
  {
  }

  /** One handler keeps the invariant. */
  lemma StepKeepsConsistency(s: State, e: Event)
    requires Consistent(s)
    ensures Consistent(Step(s, e))
  {
    match e
    case PressSave(roll) =>
      var r := SaveNote(s, roll);
      if r.outcome.Created? {
        assert r.next.allNotes == s.allNotes + [r.outcome.note];
      }
    case PressDelete(id) =>
      var r := DeleteNote(s, id);
      forall i | 0 <= i < |r.allNotes|
        ensures WellFormedNote(r.allNotes[i])
      {
        RemoveIdMembership(s.allNotes, id, r.allNotes[i]);
      }
    case _ =>
  }

  /** Every run of handlers keeps the invariant. */
  lemma {:induction false} RunKeepsConsistency(s: State, events: seq<Event>)
    requires Consistent(s)
    ensures Consistent(Run(s, events))
    decreases |events|
  {
    if |events| > 0 {
      StepKeepsConsistency(s, events[0]);
      RunKeepsConsistency(Step(s, events[0]), events[1..]);
    }
  }

  /** With the screen in sync, a create-save shows the old list with exactly
      one note appended: the draft's fields under the generated id. */
  lemma CreateAppendsOne(s: State, roll: GeneratedId)
    requires Synced(s) && ValidDraft(s.draft) && !TargetIsTruthy(s.editTarget)
    ensures Step(s, PressSave(roll)).allNotes
              == s.allNotes + [Note(roll, s.draft.text, s.draft.category.value, s.draft.client.value)]
  {
  }

  /** The ordinary create flow: open the form, type, pick both dropdowns and
      save. The list gains exactly the typed note under the generated id. */
  lemma CreateFlowAppendsTypedNote(s: State, text: string, category: string, client: string, roll: GeneratedId)
    requires Synced(s) && !TargetIsTruthy(s.editTarget) && text != ""
    ensures var shown := Step(s, PressAddNew);
            var typed := Step(shown, TypeText(text));
            var picked := Step(Step(typed, PickCategory(category)), PickClient(client));
            var r := Step(picked, PressSave(roll));
            && r.allNotes == s.allNotes + [Note(roll, text, category, client)]
            && r.stored == Some(r.allNotes)
            && r.draft == EmptyDraft && !r.modalVisible
  {
  }

  /** Nothing stops a generated id from repeating one already stored: if the
      generator yields the id of an existing note, two notes share it. */
  lemma CreatedIdMayCollide(s: State, k: nat)
    requires Consistent(s) && k < |s.allNotes|
    requires ValidDraft(s.draft) && !TargetIsTruthy(s.editTarget)
    ensures var r := Step(s, PressSave(s.allNotes[k].id as GeneratedId)).allNotes;
            |r| == |s.allNotes| + 1 && r[k].id == r[|s.allNotes|].id && !UniqueIds(r)
  {
    assert WellFormedNote(s.allNotes[k]);
    var r := Step(s, PressSave(s.allNotes[k].id as GeneratedId)).allNotes;
    assert r == s.allNotes + [r[|s.allNotes|]];
    assert r[k] == s.allNotes[k];
  }

  /** Tapping a note and saving without changing the form writes every field
      back as it was: storage and screen are unchanged, as long as no other
      note shares the id and the id is not 0. */
  lemma EditSaveRoundTrip(s: State, k: nat, roll: GeneratedId)
    requires Consistent(s) && UniqueIds(s.allNotes) && k < |s.allNotes|
    requires s.allNotes[k].id != 0
    ensures var r := Step(Step(s, PressNote(s.allNotes[k])), PressSave(roll));
            r.allNotes == s.allNotes && r.stored == s.stored && Synced(r)
  {
    var item := s.allNotes[k];
    assert WellFormedNote(item);
    UpdateWithOwnFields(s.allNotes, k);
  }

  /** The note with id 0 cannot be edited: its id is falsy, so saving after
      tapping it takes the create branch, leaves the original in place, and
      appends a copy of it under the generated id; the target stays 0. */
  lemma EditOfIdZeroCreates(s: State, k: nat, roll: GeneratedId)
    requires Consistent(s) && k < |s.allNotes| && s.allNotes[k].id == 0
    ensures var item := s.allNotes[k];
            var r := Step(Step(s, PressNote(item)), PressSave(roll));
            && r.allNotes == s.allNotes + [Note(roll, item.text, item.category, item.client)]
            && r.editTarget == Some(0)
  {
    assert WellFormedNote(s.allNotes[k]);
  }

  /** Deleting the same id twice in a row ends in the same state as deleting it once. */
  lemma {:induction false} DeleteTwiceIsDeleteOnce(s: State, id: int)
    ensures DeleteNote(DeleteNote(s, id), id) == DeleteNote(s, id)
  {
    RemoveIdIdempotent(s.allNotes, id);
    assert DeleteNote(s, id).allNotes == RemoveId(s.allNotes, id);
  }

  /** Deleting an id no note on screen carries leaves the list, and what
      storage yields, as they were. */
  lemma {:induction false} DeleteAbsentIdKeepsList(s: State, id: int)
    requires Synced(s)
    requires forall i :: 0 <= i < |s.allNotes| ==> s.allNotes[i].id != id
    ensures Step(s, PressDelete(id)).allNotes == s.allNotes
    ensures Load(Step(s, PressDelete(id)).stored) == Load(s.stored)
  {
    RemoveAbsentId(s.allNotes, id);
  }

  /** Opening the form on a note and closing it again changes no note and
      leaves the form empty. */
  lemma EditThenCloseDiscards(s: State, item: Note)
    ensures var r := Step(Step(s, PressNote(item)), PressClose);
            && r.stored == s.stored && r.allNotes == s.allNotes
            && r.draft == EmptyDraft && r.editTarget.None? && !r.modalVisible
  {
  }
}

=== FILE: note_app.dfy ===
/** The state the `App` component keeps and the transitions its handlers make
    on it. Every transition is a pure function from the state before the
    handler runs to the state once its awaited storage calls have settled. */
module NoteApp {
  import opened Options
  import opened NoteList

  /** The value under the 'NOTES' key: `None` while the key is absent, which is
      the case before the first save and again after the store is cleared. */
  type Storage = Option<seq<Note>>

  /** `getNotes`: the stored list, or the empty list when the key is absent. */
  function Load(stored: Storage): (r: seq<Note>)
    ensures stored.None? ==> r == []
    ensures stored.Some? ==> r == stored.value
  {
    match stored
    case None => []
    case Some(notes) => notes
  }

  /** The form's fields: the text box and the category and client dropdowns. */
  datatype Draft = Draft(text: string, category: Option<string>, client: Option<string>)

  /** The form as it is on first render and after it is closed. */
  const EmptyDraft := Draft("", None, None)

  datatype State = State(
    stored: Storage,            // AsyncStorage 'NOTES'
    allNotes: seq<Note>,        // the list on screen
    draft: Draft,               // note, catDropDownValue, clientDropDownValue
    editTarget: Option<int>,    // noteIdToEdit
    modalVisible: bool          // modalVisible
  )

  /** The component's state on first render, over whatever storage holds. */
  function Initial(stored: Storage): (r: State)
    ensures r.stored == stored && r.allNotes == []
    ensures r.draft.text == "" && r.draft.category.None? && r.draft.client.None?
    ensures r.editTarget.None? && !r.modalVisible
  {
    State(stored, [], EmptyDraft, None, false)
  }

  /** The list on screen is exactly what storage holds. */
  predicate Synced(s: State)
  {
    s.allNotes == Load(s.stored)
  }

  /** The guard of `saveNote`: text entered and both dropdowns chosen. */
  predicate ValidDraft(d: Draft)
  {
    d.text != "" && d.category.Some? && d.client.Some?
  }

  /** JavaScript truthiness of `noteIdToEdit`: `undefined`, `null` and `0` are false. */
  predicate TargetIsTruthy(target: Option<int>)
  {
    target.Some? && target.value != 0
  }

  // ---------------------------------------------------------------------------
  // Transitions

  /** `handleGetNotes`: reload the list on screen from storage. */
  function HandleGetNotes(s: State): (r: State)
    ensures Synced(r)
    ensures s.stored.None? ==> r.allNotes == []
    ensures r.(allNotes := s.allNotes) == s
  {
    s.(allNotes := Load(s.stored))
  }

  /** `createNote`: a note built from the draft and a generated id. The caller
      has already checked that both dropdowns are chosen. */
  function CreateNote(id: GeneratedId, d: Draft): (n: Note)
    requires d.category.Some? && d.client.Some?
    ensures n.id == id && 0 <= n.id < IdBound
    ensures n.text == d.text && d.category == Some(n.category) && d.client == Some(n.client)
  {
    Note(id, d.text, d.category.value, d.client.value)
  }

  /** What `saveNote` did: alerted, updated in place, or appended `note`. */
  datatype SaveOutcome = Rejected | Updated | Created(note: Note)

  datatype SaveResult = SaveResult(next: State, outcome: SaveOutcome)

  /** `saveNote`, with `roll` standing for the generated id. */
  function SaveNote(s: State, roll: GeneratedId): (r: SaveResult)
    // The branch taken.
    ensures r.outcome.Rejected? <==> !ValidDraft(s.draft)
    ensures r.outcome.Updated? <==> ValidDraft(s.draft) && TargetIsTruthy(s.editTarget)
    ensures r.outcome.Created? <==> ValidDraft(s.draft) && !TargetIsTruthy(s.editTarget)
    // Rejected: only the alert; no state changes.
    ensures r.outcome.Rejected? ==> r.next == s
    // Updated: the on-screen list, with the target's notes rewritten, is written back.
    ensures r.outcome.Updated? ==>
              && r.next.stored.Some?
              && |r.next.stored.value| == |s.allNotes|
              && (forall i :: 0 <= i < |s.allNotes| ==> r.next.stored.value[i].id == s.allNotes[i].id)
              && (forall i :: 0 <= i < |s.allNotes| && s.allNotes[i].id == s.editTarget.value ==>
                    && Some(r.next.stored.value[i].category) == s.draft.category
                    && Some(r.next.stored.value[i].client) == s.draft.client
                    && r.next.stored.value[i].text == s.draft.text)
              && (forall i :: 0 <= i < |s.allNotes| && s.allNotes[i].id != s.editTarget.value ==>
                    r.next.stored.value[i] == s.allNotes[i])
              && r.next.draft == s.draft
              && r.next.editTarget.None?
              && !r.next.modalVisible
    // Created: one note appended to what storage held; the form is reset.
    ensures r.outcome.Created? ==>
              && r.outcome.note.id == roll
              && r.outcome.note.text == s.draft.text
              && Some(r.outcome.note.category) == s.draft.category
              && Some(r.outcome.note.client) == s.draft.client
              && r.next.stored == Some(Load(s.stored) + [r.outcome.note])
              && r.next.draft == EmptyDraft
              && r.next.editTarget == s.editTarget
              && !r.next.modalVisible
    // Every completed write is followed by a reload.
    ensures !r.outcome.Rejected? ==> Synced(r.next)
  {
    if !ValidDraft(s.draft) then
      SaveResult(s, Rejected)
    else if TargetIsTruthy(s.editTarget) then
      var d := s.draft;
      var updated := UpdateWhere(s.allNotes, s.editTarget.value, d.text, d.category.value, d.client.value);
      var written := s.(stored := Some(updated), editTarget := None);
      SaveResult(HandleGetNotes(written).(modalVisible := false), Updated)
    else
      var note := CreateNote(roll, s.draft);
      var written := s.(stored := Some(Load(s.stored) + [note]));
      var reset := written.(draft := EmptyDraft, modalVisible := false);
      SaveResult(HandleGetNotes(reset), Created(note))
  }

  /** `handleAddNewNote`: `saveNote`, then the text box is cleared whatever
      `saveNote` did. */
  function HandleAddNewNote(s: State, roll: GeneratedId): (r: SaveResult)
    ensures r.next.draft.text == ""
    ensures r.outcome == SaveNote(s, roll).outcome
    // Only the text box differs from what saveNote left.
    ensures r.next.(draft := SaveNote(s, roll).next.draft) == SaveNote(s, roll).next
    ensures r.next.draft.category == SaveNote(s, roll).next.draft.category
    ensures r.next.draft.client == SaveNote(s, roll).next.draft.client
    // A rejected save touches neither list, the dropdowns, the target nor the modal.
    ensures !ValidDraft(s.draft) ==> r.next == s.(draft := s.draft.(text := ""))
    ensures ValidDraft(s.draft) ==> Synced(r.next) && !r.next.modalVisible
  {
    var saved := SaveNote(s, roll);
    saved.(next := saved.next.(draft := saved.next.draft.(text := "")))
  }

  /** `editNote`: load the chosen note into the form and make it the target. */
  function EditNote(s: State, item: Note): (r: State)
    ensures r.editTarget == Some(item.id)
    ensures r.draft.text == item.text
    ensures r.draft.category == Some(item.category) && r.draft.client == Some(item.client)
    ensures r.modalVisible
    ensures r.stored == s.stored && r.allNotes == s.allNotes
  {
    s.(editTarget := Some(item.id), draft := Draft(item.text, Some(item.category), Some(item.client)),
       modalVisible := true)
  }

  /** `handleOpenForm`: show the form, keeping whatever it last held. */
  function HandleOpenForm(s: State): (r: State)
    ensures r.modalVisible
    ensures r.(modalVisible := s.modalVisible) == s
  {
    s.(modalVisible := true)
  }

  /** `handleCloseForm`: hide and empty the form; storage is not touched. */
  function HandleCloseForm(s: State): (r: State)
    ensures !r.modalVisible && r.editTarget.None?
    ensures r.draft.text == "" && r.draft.category.None? && r.draft.client.None?
    ensures r.stored == s.stored && r.allNotes == s.allNotes
  {
    s.(modalVisible := false, draft := EmptyDraft, editTarget := None)
  }

  /** `deleteNote`: write back the on-screen list without the notes carrying
      `id`, then reload. */
  function DeleteNote(s: State, id: int): (r: State)
    ensures Synced(r) && r.stored.Some?
    ensures forall i :: 0 <= i < |r.allNotes| ==> r.allNotes[i].id != id
    ensures forall n :: multiset(r.allNotes)[n] == if n.id == id then 0 else multiset(s.allNotes)[n]
    ensures IsSubsequence(r.allNotes, s.allNotes)
    ensures r.draft == s.draft && r.editTarget == s.editTarget && r.modalVisible == s.modalVisible
  {
    RemoveIdKeepsOthers(s.allNotes, id);
    HandleGetNotes(s.(stored := Some(RemoveId(s.allNotes, id))))
  }

  /** `deleteAllNotes`: on "Yes" the whole store is cleared and the list
      reloaded; on "No" nothing happens. */
  function DeleteAllNotes(s: State, confirmed: bool): (r: State)
    ensures confirmed ==> r.stored.None? && r.allNotes == [] && Synced(r)
    ensures confirmed ==> r.draft == s.draft && r.editTarget == s.editTarget && r.modalVisible == s.modalVisible
    ensures !confirmed ==> r == s
  {
    if confirmed then HandleGetNotes(s.(stored := None)) else s
  }

  // ---------------------------------------------------------------------------
  // Runs of the component

  /** What the user (or the mount effect) can do to the component. */
  datatype Event =
    | Refresh                    // the mount effect, `handleGetNotes`
    | TypeText(text: string)     // typing into the text box
    | PickCategory(category: string)  // choosing in the category dropdown
    | PickClient(client: string)      // choosing in the client dropdown
    | PressAddNew                // "Add New Note"
    | PressNote(item: Note)      // tapping a note
    | PressClose                 // "Close"
    | PressSave(roll: GeneratedId)  // "Save", with the id the generator yields
    | PressDelete(id: int)       // the bin icon of a note
    | PressClear(confirmed: bool)   // "Clear Data", answered "Yes" or "No"

  /** The handler each event reaches. */
  function Step(s: State, e: Event): (r: State)
    // Editing the form changes only the field edited.
    ensures e.TypeText? ==> r == s.(draft := s.draft.(text := e.text))
    ensures e.PickCategory? ==> r == s.(draft := s.draft.(category := Some(e.category)))
    ensures e.PickClient? ==> r == s.(draft := s.draft.(client := Some(e.client)))
    // Only a save, a delete or a clear writes to storage.
    ensures r.stored != s.stored ==> e.PressSave? || e.PressDelete? || e.PressClear?
    // Only a refresh or a write changes the list on screen.
    ensures r.allNotes != s.allNotes ==> e.Refresh? || e.PressSave? || e.PressDelete? || e.PressClear?
  {
    match e
    case Refresh => HandleGetNotes(s)
    case TypeText(text) => s.(draft := s.draft.(text := text))
    case PickCategory(category) => s.(draft := s.draft.(category := Some(category)))
    case PickClient(client) => s.(draft := s.draft.(client := Some(client)))
    case PressAddNew => HandleOpenForm(s)
    case PressNote(item) => EditNote(s, item)
    case PressClose => HandleCloseForm(s)
    case PressSave(roll) => HandleAddNewNote(s, roll).next
    case PressDelete(id) => DeleteNote(s, id)
    case PressClear(confirmed) => DeleteAllNotes(s, confirmed)
  }

  function Run(s: State, events: seq<Event>): State
    decreases |events|
  {
    if |events| == 0 then s else Run(Step(s, events[0]), events[1..])
  }

  /** A note as the app writes it: text entered and an id from the generator. */
  predicate WellFormedNote(n: Note)
  {
    n.text != "" && 0 <= n.id < IdBound
  }

  /** The invariant every handler keeps once the mount effect has run. */
  predicate Consistent(s: State)
  {
    Synced(s) && forall i :: 0 <= i < |s.allNotes| ==> WellFormedNote(s.allNotes[i])
  }
}

=== FILE: note_list.dfy ===
/** The note record and the two whole-list operations the app performs on it:
    the `filter` behind deleting a note and the `map` behind saving an edit. */
module NoteList {

  /** Generated ids are whole numbers drawn uniformly below this bound. */
  const IdBound := 1000

  /** An id the generator can produce. */
  type GeneratedId = i: int | 0 <= i < IdBound

  /** One stored note. Ids are plain integers and nothing keeps them unique. */
  datatype Note = Note(id: int, text: string, category: string, client: string)

  /** `sub` is `s` with some elements dropped, the rest in their original order. */
  ghost predicate IsSubsequence(sub: seq<Note>, s: seq<Note>)
    decreases |s|
  {
    if |sub| == 0 then true
    else if |s| == 0 then false
    else if sub[0] == s[0] then IsSubsequence(sub[1..], s[1..])
    else IsSubsequence(sub, s[1..])
  }

  /** No two positions of `notes` carry the same id. */
  predicate UniqueIds(notes: seq<Note>)
  {
    forall i, j :: 0 <= i < |notes| && 0 <= j < |notes| && notes[i].id == notes[j].id ==> i == j
  }

  /** Deleting a note: keeps, in order, the notes whose id differs from `id`. */
  function RemoveId(notes: seq<Note>, id: int): (r: seq<Note>)
    ensures |r| <= |notes|
    ensures forall i :: 0 <= i < |r| ==> r[i].id != id
  {
    if |notes| == 0 then []
    else if notes[0].id == id then RemoveId(notes[1..], id)
    else [notes[0]] + RemoveId(notes[1..], id)
  }

  /** Saving an edit: every note carrying `id` gets the new text, category and
      client; every other note is left as it is. */
  function UpdateWhere(notes: seq<Note>, id: int, text: string, category: string, client: string): (r: seq<Note>)
    ensures |r| == |notes|
    ensures forall i :: 0 <= i < |r| ==> r[i].id == notes[i].id
    ensures forall i :: 0 <= i < |r| && notes[i].id == id ==>
              r[i].text == text && r[i].category == category && r[i].client == client
    ensures forall i :: 0 <= i < |r| && notes[i].id != id ==> r[i] == notes[i]
  {
    if |notes| == 0 then []
    else
      var head := if notes[0].id == id then notes[0].(text := text, category := category, client := client) else notes[0];
      [head] + UpdateWhere(notes[1..], id, text, category, client)
  }

  // ---------------------------------------------------------------------------
  // Properties of RemoveId

  /** RemoveId keeps, in their original order, exactly the notes whose id
      differs from `id`, each as often as it occurs. */
  lemma {:induction false} RemoveIdKeepsOthers(notes: seq<Note>, id: int)
    ensures forall n :: multiset(RemoveId(notes, id))[n] == if n.id == id then 0 else multiset(notes)[n]
    ensures IsSubsequence(RemoveId(notes, id), notes)
    decreases |notes|
  {
    if |notes| > 0 {
      RemoveIdKeepsOthers(notes[1..], id);
      assert notes == [notes[0]] + notes[1..];
    }
  }

  /** A subsequence never holds more copies of a note than the sequence it came from. */
  lemma {:induction false} SubsequenceCounts(sub: seq<Note>, s: seq<Note>, n: Note)
    requires IsSubsequence(sub, s)
    ensures multiset(sub)[n] <= multiset(s)[n]
    decreases |s|
  {
    if |sub| == 0 {
    } else {
      assert |s| > 0;
      assert s == [s[0]] + s[1..];
      if sub[0] == s[0] {
        SubsequenceCounts(sub[1..], s[1..], n);
        assert sub == [sub[0]] + sub[1..];
      } else {
        SubsequenceCounts(sub, s[1..], n);
      }
    }
  }

  /** A subsequence that does not start with the head of `s` draws every copy
      of that head from the tail of `s`. */
  lemma SkipHead(sub: seq<Note>, s: seq<Note>)
    requires IsSubsequence(sub, s) && |s| > 0
    ensures (|sub| == 0 || sub[0] != s[0]) ==> multiset(sub)[s[0]] <= multiset(s[1..])[s[0]]
  {
    if |sub| > 0 && sub[0] != s[0] {
      SubsequenceCounts(sub, s[1..], s[0]);
    }
  }

  /** RemoveId is the only order-preserving selection from `notes` that keeps
      every note whose id differs from `id`, as often as it occurs, and nothing else. */
  lemma {:induction false} RemoveIdIsTheFilter(notes: seq<Note>, id: int, r: seq<Note>)
    requires IsSubsequence(r, notes)
    requires forall n :: multiset(r)[n] == if n.id == id then 0 else multiset(notes)[n]
    ensures r == RemoveId(notes, id)
    decreases |notes|
  {
    if |notes| == 0 {
      assert |r| == 0;
    } else {
      var a, t := notes[0], notes[1..];
      assert notes == [a] + t;
      SkipHead(r, notes);
      forall n | n != a
        ensures multiset(notes)[n] == multiset(t)[n]
      {
      }
      if a.id == id {
        // `a` has no copy in `r`, so `r` is drawn from the tail.
        assert a !in multiset(r);
        RemoveIdIsTheFilter(t, id, r);
      } else {
        // Skipping `a` would leave `r` one copy of `a` short.
        assert |r| > 0 && r[0] == a;
        var rt := r[1..];
        assert r == [a] + rt;
        RemoveIdIsTheFilter(t, id, rt);
      }
    }
  }

  /** Deleting an id no note carries leaves the list as it was. */
  lemma {:induction false} RemoveAbsentId(notes: seq<Note>, id: int)
    requires forall i :: 0 <= i < |notes| ==> notes[i].id != id
    ensures RemoveId(notes, id) == notes
    decreases |notes|
  {
    if |notes| > 0 {
      RemoveAbsentId(notes[1..], id);
    }
  }

  /** A note is still there after deleting `id` iff it was there and carries another id. */
  lemma RemoveIdMembership(notes: seq<Note>, id: int, n: Note)
    ensures n in RemoveId(notes, id) <==> n in notes && n.id != id
  {
    RemoveIdKeepsOthers(notes, id);
    assert n in RemoveId(notes, id) <==> multiset(RemoveId(notes, id))[n] > 0;
  }

  /** Deleting the same id twice is deleting it once. */
  lemma {:induction false} RemoveIdIdempotent(notes: seq<Note>, id: int)
    ensures RemoveId(RemoveId(notes, id), id) == RemoveId(notes, id)
  {
    RemoveAbsentId(RemoveId(notes, id), id);
  }

  // ---------------------------------------------------------------------------
  // Properties of UpdateWhere

  /** Writing back the fields a note already has changes nothing, provided no
      other note shares its id. */
  lemma UpdateWithOwnFields(notes: seq<Note>, k: nat)
    requires k < |notes| && UniqueIds(notes)
    ensures UpdateWhere(notes, notes[k].id, notes[k].text, notes[k].category, notes[k].client) == notes
  {
    var r := UpdateWhere(notes, notes[k].id, notes[k].text, notes[k].category, notes[k].client);
    forall i | 0 <= i < |notes|
      ensures r[i] == notes[i]
    {
      if notes[i].id == notes[k].id {
        assert i == k;
      }
    }
  }

  /** An update with an id no note carries leaves the list as it was. */
  lemma UpdateAbsentId(notes: seq<Note>, id: int, text: string, category: string, client: string)
    requires forall i :: 0 <= i < |notes| ==> notes[i].id != id
    ensures UpdateWhere(notes, id, text, category, client) == notes
  {
  }

  /** Applying the same update twice is applying it once. */
  lemma UpdateIdempotent(notes: seq<Note>, id: int, text: string, category: string, client: string)
    ensures var once := UpdateWhere(notes, id, text, category, client);
            UpdateWhere(once, id, text, category, client) == once
  {
  }
}

=== FILE: options.dfy ===
/** The optional value used for the form's dropdowns, the edit target and the
    storage slot: `None` stands for JavaScript's `null`/`undefined`. */
module Options {

  datatype Option<+T> = None | Some(value: T)
}
